=== FILE: README.md ===
# Retro in-class chat: thread registry and client logic

This project models the core of a small classroom chat relay. An instructor
opens a *thread* and gets a 4-digit code. Students join the thread with that
code, a name and an email. Everyone in the thread exchanges timestamped notes.
The instructor closes the thread, and the relay archives its final state and
forgets it.

The model has two halves.

- **Relay** (`server/server.js`). The live table `threads` is a
  `map<string, Thread>`. The socket handlers `create_thread`, `join_thread`,
  `send_note` and `close_thread` are pure functions. Each one returns the new
  table and the list of transport effects it performs, in order: subscribe
  the caller to a room, emit to the caller, or emit to a room. `close_thread`
  also returns the archive file written by the `saveThreadToDB` merge.
- **Browser client** (`client/src/App.js`). This half covers the guards on
  joining and sending, the note-list updates on incoming events, and the text
  of the downloadable transcript. The JavaScript `trim`, `join` and `split`
  it depends on are written out in `JsText`.

Modules:

| module | file | contents |
|---|---|---|
| `Records` | records.dfy | participants, notes, threads, and the events in each direction |
| `ThreadIds` | thread_ids.dfy | the random 4-digit id and its decimal string |
| `Archive` | archive.dfy | the keyed archive merge |
| `Server` | server.dfy | the four handlers and the request dispatcher |
| `ServerTraces` | server_traces.dfy | properties over runs of requests, and a whole-session scenario |
| `JsText` | js_text.dfy | `trim`, `join`, `split` |
| `Client` | client.dfy | client actions and event handlers |
| `Transcript` | transcript.dfy | log file text |
| `Delivery` | delivery.dfy | which socket receives which event; what the clients' note lists end up holding |

The environment is passed in as parameters:

- `Math.random()` is a real `r` with `0 <= r < 1`.
- `Date.now()` is an integer.
- `toLocaleTimeString()`, `toISOString()` and `toLocaleDateString()` are strings.
- The socket id is a string.
- The archive file is what reading it yields: `Missing`, `Unreadable` (the read
  or the JSON parse throws), or `Stored(records)`.

In several places the code does not do what such a service would be
expected to do (retry on an id collision, check the caller's role on close,
reject blank notes on the server). The model follows the code:

- An id collision overwrites the live thread. The code does not retry
  (`ServerTraces.CreateOverwritesOnCollision`). Students already in the room are
  not told, so, whenever the overwritten thread had notes, their note lists no
  longer match the thread's log (`Delivery.CollisionDesyncsStudent`).
- A closed thread's id can be drawn again, and the archive keeps one record
  per id. Closing the second thread replaces the first thread's archived
  record (`Archive.SaveSameIdReplaces`, `ServerTraces.ReusedIdOverwritesArchive`).
- `close_thread` does not check the caller's role. Any socket may close any
  present thread.
- `send_note` does not check that the caller joined. `threadId` and `name` come
  from the payload (server/server.js:62-63), so any socket may post to any open
  thread under any name. `Server.SendNote` has no socket parameter for this
  reason.
- The relay stores and broadcasts blank notes (`ServerTraces.BlankNoteIsStored`).
  Only the client filters them out (`Client.SentTextIsNeverBlank`).
- Joining twice adds the participant to the roster twice. The roster is a list,
  not a set keyed by connection.
- A note's `id` is `Date.now()`. It is not guaranteed to increase, and the
  model claims nothing about it.

## Model

| member | source | states |
|---|---|---|
| ThreadIds.Draw | server/server.js:44 | `Math.floor(1000 + r * 9000)` lies in 1000..9999 for every draw r in [0, 1) |
| ThreadIds.DrawReachesEveryId | server/server.js:44 | every integer 1000..9999 is produced by some draw in [0, 1) |
| ThreadIds.DecimalString | server/server.js:44 | `toString()` of an integer below 10^21 (the ids here are 1000..9999) is a non-empty string of decimal digits, with no leading zero once the number is 10 or more |
| ThreadIds.ParseDecimalString | server/server.js:44 | reading the decimal string back gives the original number |
| ThreadIds.DecimalStringInjective | server/server.js:44 | distinct numbers print as distinct id strings |
| ThreadIds.FourDigits | server/server.js:44 | a number in 1000..9999 prints as exactly four characters |
| ThreadIds.NewThreadId | server/server.js:44 | an allocated id is 4 digits, does not start with '0', and denotes a number in 1000..9999 |
| Archive.SaveThread | server/server.js:28-37 | the written store has exactly the loaded keys plus `threadId`, the new record at `threadId`, and every other loaded record unchanged |
| Archive.SaveTwoThreads | server/server.js:28-37 | archiving two threads with different ids in turn keeps both records and every earlier record |
| Archive.SaveSameIdReplaces | server/server.js:28-37 | archiving under an id already in the store replaces the earlier record outright, as if it had never been archived |
| Archive.UnreadableStoreStartsOver | server/server.js:30-36 | with an unreadable or missing file the store written back holds only the new record |
| Server.JoinNotice | server/server.js:56 | the arrival notice is "> " + name + " has jacked in.", and the name can be read back from it |
| Server.CreateThread | server/server.js:43-48 | the new id maps to an empty active thread; all other entries keep their presence and content, and an existing entry at that id is replaced; the caller joins the room and then receives `thread_created` with the id |
| Server.JoinThread | server/server.js:50-60 | on a missing or inactive thread the table is unchanged and the only effect is the error 'Thread not found or closed.'; on an open thread exactly one `{name, email, socketId}` is appended to `students`, `messages` and all other threads are unchanged, and the caller joins the room, receives the pre-join messages, and the room receives the arrival notice |
| Server.SendNote | server/server.js:62-73 | on a thread that is not open nothing changes and nothing is emitted; on an open thread exactly one note with the given clock values, name and text is appended to `messages`, `students` and other threads are unchanged, and that note is broadcast to the room |
| Server.CloseThread | server/server.js:75-82 | closing an absent id changes nothing and emits nothing; closing a present id removes only it, broadcasts `thread_closed` to its room, and writes the thread with `active = false` and `closedAt` into the archive |
| Server.Handle | server/server.js:40-83 | one request keeps every thread of the table active, changes no thread other than the one it addresses, writes the archive only when it is a close, and emits only to that thread's room |
| ServerTraces.RunKeepsAllActive | server/server.js:40-83 | no sequence of requests leaves an inactive thread in the table |
| ServerTraces.RunIsolatesThreads | server/server.js:40-83 | a thread that no request of a run addresses keeps its presence and content |
| ServerTraces.SendAllBroadcastsInLogOrder | server/server.js:62-73 | across a run of `send_note` requests, an open thread's log grows by exactly the notes posted to it, in posting order; its room receives exactly those notes in the same order; its roster is unchanged |
| ServerTraces.SendAllIgnoresUnopenedThread | server/server.js:63 | posts to a thread that is not open change nothing there and broadcast nothing to its room |
| ServerTraces.ClosedThreadIsGone | server/server.js:75-82 | after a close the id is absent, a later join on it fails with the not-found error, a later `send_note` on it is a no-op, and the archive holds the final thread inactive with its closure time |
| ServerTraces.CloseAbsentIsNoOp | server/server.js:76 | closing an id that is not in the table changes neither the table nor the archive, and emits nothing |
| ServerTraces.ReusedIdOverwritesArchive | server/server.js:28-81 | closing a thread, drawing its id again and closing the new thread leaves only the second, empty record in the archive; the first log is lost from it whenever it was non-empty |
| ServerTraces.CreateOverwritesOnCollision | server/server.js:45 | when the drawn id is taken, the old thread is replaced by an empty one and the table does not grow |
| ServerTraces.BlankNoteIsStored | server/server.js:63-71 | the relay appends and broadcasts a note with empty text |
| ServerTraces.ScenarioThreadId | server/server.js:44 | the draw 3821/9000 allocates the id "4821" |
| ServerTraces.ScenarioCreate | server/server.js:43-48 | creating on an empty table with that draw installs an empty thread "4821" and confirms "4821" to the caller |
| ServerTraces.ScenarioJoin | server/server.js:50-56 | Ann's join gets an empty history, the room hears "> Ann has jacked in.", and she is the only student |
| ServerTraces.ScenarioSend | server/server.js:62-71 | Ann's "hello" becomes the thread's one note and is broadcast to the room |
| ServerTraces.ScenarioClose | server/server.js:75-82 | closing "4821" with no archive file empties the table, broadcasts the closure, and archives one record holding the note and Ann, inactive |
| JsText.TrimStartIndex | client/src/App.js:73 | everything before the returned index is whitespace, and the character at it, if any, is not |
| JsText.TrimEndIndex | client/src/App.js:73 | everything from the returned index on is whitespace, and the character before it, if any, is not |
| JsText.Trim | client/src/App.js:73 | `trim()` is the slice of the input between all-whitespace margins, and it neither starts nor ends with whitespace |
| JsText.TrimEmptyIffBlank | client/src/App.js:73 | `message.trim()` is empty exactly when every character of the message is whitespace |
| JsText.SplitJoin | client/src/App.js:85 | splitting a newline join gives back the lines, when there is at least one line and none holds a newline |
| JsText.JoinSeparatorCount | client/src/App.js:85 | the join puts exactly one separator between consecutive lines |
| Client.NoteEntries | client/src/App.js:27 | the history becomes one note entry per note, in order |
| Client.NotesOfNoteEntries | client/src/App.js:27 | the notes read back from those entries are the history |
| Client.CreateThread | client/src/App.js:59-63 | the role becomes instructor, the name "SYSADMIN", nothing else changes, and one `create_thread` is emitted |
| Client.JoinThread | client/src/App.js:65-69 | nothing is emitted and the state is unchanged exactly when the thread id, name or email is empty; otherwise the role becomes student and one `join_thread` with the three fields is emitted |
| Client.SendNote | client/src/App.js:71-77 | a `send_note` with the untrimmed draft is emitted and the draft cleared exactly when the draft is not all whitespace; otherwise nothing is emitted and nothing changes |
| Client.SentTextIsNeverBlank | client/src/App.js:73-74 | a note request from the client never carries blank text |
| Client.OnThreadCreated | client/src/App.js:20-24 | the client adopts the new id, opens the chat view and shows the session notice; role, name, email, draft message and note list are untouched |
| Client.OnJoinedSuccess | client/src/App.js:26-30 | the note list becomes exactly the server's history, one note entry per note, and the chat view opens with the link notice; role, thread id, name, email and draft message are untouched |
| Client.OnReceiveNote | client/src/App.js:32-34 | the note is appended at the end, prior entries keep their order, and nothing else changes |
| Client.OnSystemMessage | client/src/App.js:36-38 | `{system: true, text}` is appended at the end, prior entries keep their order, the notes among the entries are unchanged, and nothing else changes |
| Transcript.FormatEntry | client/src/App.js:82-84 | a system line is "[SYSTEM] " then the text; a note line is "[" + timestamp + "] <" + name + "> " then the text |
| Transcript.Transcript | client/src/App.js:87-88 | the file is the header followed immediately by the body |
| Transcript.TranscriptTitle | client/src/App.js:87-88 | the file starts with "CLASS LOG - THREAD " + threadId + a newline |
| Transcript.BodyHasOneLinePerEntry | client/src/App.js:82-85 | when no field holds a newline, the body splits at newlines into exactly one line per entry in list order, with one fewer newline than entries |
| Transcript.EmptyLogIsHeaderOnly | client/src/App.js:82-88 | with no entries the file is the header alone |
| Delivery.CreatorReceivesId | server/server.js:46-47 | the creator receives only `thread_created` with the new id, and its client then shows that id |
| Delivery.JoinInboxes | server/server.js:53-58 | on success the joiner receives the history and then the notice, because it joins the room first; other room members receive only the notice; on failure the joiner receives only the error and nobody else receives anything |
| Delivery.JoinerSeesHistory | client/src/App.js:26-38 | after a successful join the joiner's list is the thread's notes followed by its own arrival notice |
| Delivery.RoomMemberFollowsLog | server/server.js:62-73 | while only `send_note` requests are handled, a client subscribed to an open thread's room and to no other room appends exactly the notes the thread's log gains, in log order |
| Delivery.StudentNotesMatchLog | server/server.js:50-73 | a student who joins an open thread and stays while only `send_note` requests are handled ends with the thread's log as its notes, in order |
| Delivery.CreateIsSilentToRooms | server/server.js:43-48 | `create_thread` sends nothing to any room, so no subscribed socket hears of it |
| Delivery.CollisionDesyncsStudent | server/server.js:43-48 | after a `create_thread` that draws an open thread's id, a student of the old thread keeps the old log and then receives the new posts; the thread's log holds only the new posts, so the two differ whenever the old log was non-empty |

## Left out

- Express setup, static files, the catch-all route and `server.listen`
  (server/server.js:1-20, 85-94). This is HTTP plumbing with no decisions in it.
- socket.io transport. A room is reduced to the set of room names a socket is
  subscribed to (`Delivery`), and delivery is taken to happen in emission order.
  Connection and disconnect logging is left out.
- File system and JSON. Reading, `JSON.parse`, `JSON.stringify` and
  `writeFileSync` become the `StoreFile` value. `Stored` holds a plain JSON
  object, so other parsed values are not modelled:
  - A number, string or boolean. The file is not strict-mode code, so the
    assignment at server/server.js:36 is silently ignored. The primitive is
    written back and the closed thread's record is lost without an error.
  - An array. The id becomes an array index: id "4821" gives an array of 4822
    elements, serialised with `null` holes.
  - `null`. The assignment at line 36 throws.
- A failing write at line 37 is not modelled either.
- The consequence of the two throws. Both happen outside the `try` (lines
  30-34), after line 77 set `active` to false and line 78 emitted
  `thread_closed`, and before line 80 deletes the thread. The thread then
  stays in the table as inactive. Apart from prototype-chain keys (below),
  this is the only way the `.active` checks at lines 52 and 63 can fail. It is also the only way the source can break
  the property `ServerTraces.RunKeepsAllActive` proves.
- ThreadIds.Draw: `Math.random()` is an exact real, not an IEEE double. For
  this expression the 1000..9999 range is the same.
- Keys on the object prototype chain (such as `"constructor"`, `"toString"`
  or `"__proto__"`) are truthy in `threads[threadId]`. They are not modelled:
  the table is a plain map. In the source such a key gets past the truthiness
  checks at lines 52, 63 and 76:
  - Join and send then fail on `.active`, which is undefined.
  - `close_thread` emits `thread_closed` to that room and archives
    `{active: false, closedAt}` under the key, because the assignment at
    line 36 creates an own property.
  - `ServerTraces.CloseAbsentIsNoOp` says closing such an id is a no-op; that
    holds only for ids that are not on the prototype chain.
- Non-string payload fields, such as a missing `name` that JavaScript would
  render as "undefined", are not modelled. Every payload field is a string.
- Client.ApplyEvent: `thread_closed` and `error` only raise an alert or reload
  the page (client/src/App.js:40-50), so in the model they leave the state as it
  is.
- All React rendering, hooks, scrolling, `alert`, `window.confirm`,
  `window.location.reload`, `setTimeout`, and the Blob/URL/anchor download
  (client/src/App.js:52-57, 90-198). This is UI and browser I/O. It includes
  `closeSession`: its two effects, the transcript text and the
  `close_thread` request, are modelled separately.
- The `DATE:` line of the transcript header takes `toLocaleDateString()` as a
  parameter.

=== FILE: archive.dfy ===
/** The archive merge `saveThreadToDB` (server/server.js:28-38). The JSON file
    is modelled by what reading it yields; serialisation is left out. */
module Archive {
  import opened Records

  /** One archived thread: the thread's fields spread into a new record,
      plus the closure time as an ISO-8601 string. */
  datatype ArchivedThread =
    ArchivedThread(active: bool, messages: seq<Note>, students: seq<Participant>, closedAt: string)

  type Store = map<string, ArchivedThread>

  /** What reading the store file yields: no file, a file whose read or
      JSON parse throws, or a parsed object of records. */
  datatype StoreFile = Missing | Unreadable | Stored(records: Store)

  /** The record store the merge starts from: the parsed records, or an empty
      store when the file is absent or cannot be read or parsed. */
  function Loaded(file: StoreFile): Store {
    match file
    case Stored(records) => records
    case _ => map[]
  }

  /** `{ ...data, closedAt }` */
  function Archived(data: Thread, closedAt: string): ArchivedThread {
    ArchivedThread(data.active, data.messages, data.students, closedAt)
  }

  /** The store written back by `saveThreadToDB(threadId, data)`: only the key
      `threadId` is set, every other key of the loaded store is kept as it was. */
  function SaveThread(file: StoreFile, threadId: string, data: Thread, closedAt: string): (db: Store)
    ensures db.Keys == Loaded(file).Keys + {threadId}
    ensures db[threadId] == Archived(data, closedAt)
    ensures forall k :: k in Loaded(file) && k != threadId ==> db[k] == Loaded(file)[k]
  {
    Loaded(file)[threadId := Archived(data, closedAt)]
  }

  /** Archiving two threads with different ids one after the other keeps both
      records, and every record stored before. */
  lemma SaveTwoThreads(file: StoreFile, a: string, da: Thread, ta: string, b: string, db: Thread, tb: string)
    requires a != b
    ensures var after := SaveThread(Stored(SaveThread(file, a, da, ta)), b, db, tb);
            && after.Keys == Loaded(file).Keys + {a, b}
            && after[a] == Archived(da, ta)
            && after[b] == Archived(db, tb)
            && forall k :: k in Loaded(file) && k != a && k != b ==> after[k] == Loaded(file)[k]
  {
  }

  /** Archiving a second thread under an id already in the store replaces the
      first record: the result is as if the first had never been archived.
      Ids come back into use once a thread is closed. */
  lemma SaveSameIdReplaces(file: StoreFile, id: string, first: Thread, t1: string, second: Thread, t2: string)
    ensures var after := SaveThread(Stored(SaveThread(file, id, first, t1)), id, second, t2);
            && after == SaveThread(file, id, second, t2)
            && (first.messages != second.messages ==> after[id] != Archived(first, t1))
  {
    var after := SaveThread(Stored(SaveThread(file, id, first, t1)), id, second, t2);
    assert after.Keys == SaveThread(file, id, second, t2).Keys;
  }

  /** An unreadable store loses its earlier records: the result holds only the
      thread just archived. */
  lemma UnreadableStoreStartsOver(threadId: string, data: Thread, closedAt: string)
    ensures SaveThread(Unreadable, threadId, data, closedAt) == map[threadId := Archived(data, closedAt)]
    ensures SaveThread(Missing, threadId, data, closedAt) == SaveThread(Unreadable, threadId, data, closedAt)
  {
  }
}

=== FILE: client.dfy ===
/** The pure logic of the browser client (client/src/App.js): the guards of
    the create, join and send actions, and the note-list updates performed on
    incoming events. Rendering, alerts and reloads are left out. */
module Client {
  import opened Records
  import JsText

  datatype View = Landing | StudentLogin | Chat

  /** The role the client assumes; `Unassigned` is the initial empty string. */
  datatype Role = Unassigned | Instructor | Student

  /** One line of the chat window: a system notice or a note. */
  datatype Entry = SystemEntry(text: string) | NoteEntry(note: Note)

  /** The component's state variables. */
  datatype ClientState = ClientState(
    view: View, role: Role, threadId: string, name: string, email: string,
    message: string, notes: seq<Entry>, systemMsg: string)

  /** A user action's new state and the requests it emits. */
  datatype Reaction = Reaction(state: ClientState, requests: seq<ClientRequest>)

  /** The history as chat entries, one per note, in order. */
  function NoteEntries(history: seq<Note>): (entries: seq<Entry>)
    ensures |entries| == |history|
    ensures forall i :: 0 <= i < |history| ==> entries[i] == NoteEntry(history[i])
    decreases |history|
  {
    if |history| == 0 then [] else [NoteEntry(history[0])] + NoteEntries(history[1..])
  }

  /** The notes among the entries, in order; system entries are skipped. */
  function NotesOf(entries: seq<Entry>): seq<Note>
    decreases |entries|
  {
    if |entries| == 0 then []
    else (if entries[0].NoteEntry? then [entries[0].note] else []) + NotesOf(entries[1..])
  }

  lemma {:induction false} NotesOfAppend(a: seq<Entry>, b: seq<Entry>)
    ensures NotesOf(a + b) == NotesOf(a) + NotesOf(b)
    decreases |a|
  {
    if |a| == 0 {
      assert a + b == b;
    } else {
      assert (a + b)[0] == a[0];
      assert (a + b)[1..] == a[1..] + b;
      NotesOfAppend(a[1..], b);
    }
  }

  /** Reading the notes back out of the entries made from a history gives
      the history. */
  lemma {:induction false} NotesOfNoteEntries(history: seq<Note>)
    ensures NotesOf(NoteEntries(history)) == history
    decreases |history|
  {
    if |history| > 0 {
      var first := [NoteEntry(history[0])];
      var rest := history[1..];
      assert NoteEntries(history) == first + NoteEntries(rest);
      NotesOfAppend(first, NoteEntries(rest));
      assert NotesOf(first) == [history[0]];
      NotesOfNoteEntries(rest);
      assert [history[0]] + rest == history;
    }
  }

  /** `createThread` (client/src/App.js:59-63). */
  function CreateThread(st: ClientState): (r: Reaction)
    ensures r.state.role == Instructor && r.state.name == "SYSADMIN"
    ensures r.state.(role := st.role, name := st.name) == st
    ensures r.requests == [CreateThreadRequest]
  {
    Reaction(st.(role := Instructor, name := "SYSADMIN"), [CreateThreadRequest])
  }

  /** `joinThread`: nothing is emitted and nothing changes unless the thread
      id, the name and the email are all non-empty. */
  function JoinThread(st: ClientState): (r: Reaction)
    ensures r.requests == [] <==> (st.threadId == "" || st.name == "" || st.email == "")
    ensures r.requests == [] ==> r.state == st
    ensures r.requests != [] ==>
              && r.state == st.(role := Student)
              && r.requests == [JoinThreadRequest(st.threadId, st.name, st.email)]
  {
    if st.threadId == "" || st.name == "" || st.email == "" then Reaction(st, [])
    else Reaction(st.(role := Student), [JoinThreadRequest(st.threadId, st.name, st.email)])
  }

  /** `sendNote`: the draft is sent untrimmed and cleared when it holds a
      non-whitespace character; a blank draft is neither sent nor cleared. */
  function SendNote(st: ClientState): (r: Reaction)
    ensures r.requests == [] <==> JsText.IsBlank(st.message)
    ensures r.requests == [] ==> r.state == st
    ensures r.requests != [] ==>
              && r.state == st.(message := "")
              && r.requests == [SendNoteRequest(st.threadId, st.name, st.message)]
  {
    JsText.TrimEmptyIffBlank(st.message);
    if JsText.Trim(st.message) != "" then
      Reaction(st.(message := ""), [SendNoteRequest(st.threadId, st.name, st.message)])
    else
      Reaction(st, [])
  }

  /** A note request the client emits never carries blank text. */
  lemma SentTextIsNeverBlank(st: ClientState)
    ensures forall q :: q in SendNote(st).requests ==> q.SendNoteRequest? && !JsText.IsBlank(q.text)
  {
  }

  /** `thread_created` handler. */
  function OnThreadCreated(st: ClientState, id: string): (st': ClientState)
    ensures st'.threadId == id && st'.view == Chat
    ensures st'.systemMsg == "SESSION ESTABLISHED. ID: " + id
    ensures st'.(threadId := st.threadId, view := st.view, systemMsg := st.systemMsg) == st
  {
    st.(threadId := id, view := Chat, systemMsg := "SESSION ESTABLISHED. ID: " + id)
  }

  /** `joined_success` handler: the note list becomes the server's history. */
  function OnJoinedSuccess(st: ClientState, history: seq<Note>): (st': ClientState)
    ensures NotesOf(st'.notes) == history && |st'.notes| == |history|
    ensures st'.view == Chat && st'.threadId == st.threadId
    ensures st'.systemMsg == "CONNECTION SUCCESSFUL. LINKED TO THREAD " + st.threadId
    ensures st'.notes == NoteEntries(history)
    ensures st'.(notes := st.notes, view := st.view, systemMsg := st.systemMsg) == st
  {
    NotesOfNoteEntries(history);
    st.(notes := NoteEntries(history), view := Chat,
        systemMsg := "CONNECTION SUCCESSFUL. LINKED TO THREAD " + st.threadId)
  }

  /** `receive_note` handler: the note goes at the end, earlier entries keep
      their order. */
  function OnReceiveNote(st: ClientState, note: Note): (st': ClientState)
    ensures |st'.notes| == |st.notes| + 1 && st'.notes[..|st.notes|] == st.notes
    ensures st'.notes[|st.notes|] == NoteEntry(note)
    ensures NotesOf(st'.notes) == NotesOf(st.notes) + [note]
    ensures st'.(notes := st.notes) == st
  {
    var notes := st.notes + [NoteEntry(note)];
    NotesOfAppend(st.notes, [NoteEntry(note)]);
    assert NotesOf([NoteEntry(note)]) == [note];
    assert notes[..|st.notes|] == st.notes;
    st.(notes := notes)
  }

  /** `system_message` handler: a system entry goes at the end, earlier
      entries keep their order; the notes among the entries are unchanged. */
  function OnSystemMessage(st: ClientState, msg: string): (st': ClientState)
    ensures |st'.notes| == |st.notes| + 1 && st'.notes[..|st.notes|] == st.notes
    ensures st'.notes[|st.notes|] == SystemEntry(msg)
    ensures NotesOf(st'.notes) == NotesOf(st.notes)
    ensures st'.(notes := st.notes) == st
  {
    var notes := st.notes + [SystemEntry(msg)];
    NotesOfAppend(st.notes, [SystemEntry(msg)]);
    assert NotesOf([SystemEntry(msg)]) == [];
    assert notes[..|st.notes|] == st.notes;
    st.(notes := notes)
  }

  /** The client's reaction to one incoming event. `thread_closed` and
      `error` only raise alerts or reload the page, which the model leaves
      out, so they leave the state as it is. */
  function ApplyEvent(st: ClientState, e: ServerEvent): ClientState {
    match e
    case ThreadCreated(id) => OnThreadCreated(st, id)
    case JoinedSuccess(history) => OnJoinedSuccess(st, history)
    case ReceiveNote(note) => OnReceiveNote(st, note)
    case SystemMessage(text) => OnSystemMessage(st, text)
    case ThreadClosed => st
    case ErrorEvent(_) => st
  }

  /** The client's reaction to a sequence of incoming events, in order. */
  function ApplyAll(st: ClientState, events: seq<ServerEvent>): ClientState
    decreases |events|
  {
    if |events| == 0 then st else ApplyAll(ApplyEvent(st, events[0]), events[1..])
  }

  lemma {:induction false} ApplyAllAppend(st: ClientState, a: seq<ServerEvent>, b: seq<ServerEvent>)
    ensures ApplyAll(st, a + b) == ApplyAll(ApplyAll(st, a), b)
    decreases |a|
  {
    if |a| == 0 {
      assert a + b == b;
    } else {
      assert (a + b)[0] == a[0];
      assert (a + b)[1..] == a[1..] + b;
      ApplyAllAppend(ApplyEvent(st, a[0]), a[1..], b);
    }
  }
}

=== FILE: delivery.dfy ===
/** How the relay's effects reach the clients, and what the clients' note
    lists then hold. Rooms are reduced to the set of room names a socket is
    subscribed to; delivery is taken to be in emission order. */
module Delivery {
  import opened Records
  import opened Server
  import ServerTraces
  import opened Client

  /** The events a socket other than the caller receives from a handler's
      effects, when it is subscribed to `rooms`. */
  function MemberInbox(effects: seq<Effect>, rooms: set<string>): seq<ServerEvent>
    decreases |effects|
  {
    if |effects| == 0 then []
    else
      (if effects[0].ToRoom? && effects[0].room in rooms then [effects[0].event] else [])
      + MemberInbox(effects[1..], rooms)
  }

  /** The events the calling socket receives from its handler's effects: its
      own emits, and the room emits to rooms it is subscribed to at that
      point, including rooms the handler subscribed it to earlier. */
  function SenderInbox(effects: seq<Effect>, rooms: set<string>): seq<ServerEvent>
    decreases |effects|
  {
    if |effects| == 0 then []
    else
      match effects[0]
      case JoinRoom(r) => SenderInbox(effects[1..], rooms + {r})
      case ToSender(e) => [e] + SenderInbox(effects[1..], rooms)
      case ToRoom(r, e) => (if r in rooms then [e] else []) + SenderInbox(effects[1..], rooms)
  }

  lemma {:induction false} MemberInboxAppend(a: seq<Effect>, b: seq<Effect>, rooms: set<string>)
    ensures MemberInbox(a + b, rooms) == MemberInbox(a, rooms) + MemberInbox(b, rooms)
    decreases |a|
  {
    if |a| == 0 {
      assert a + b == b;
    } else {
      var head := if a[0].ToRoom? && a[0].room in rooms then [a[0].event] else [];
      assert (a + b)[0] == a[0];
      assert (a + b)[1..] == a[1..] + b;
      assert MemberInbox(a + b, rooms) == head + MemberInbox(a[1..] + b, rooms);
      MemberInboxAppend(a[1..], b, rooms);
      ConcatAssoc(head, MemberInbox(a[1..], rooms), MemberInbox(b, rooms));
    }
  }

  /** The creator receives only the confirmation carrying the new id, and its
      client then shows that id. */
  lemma CreatorReceivesId(threads: Threads, r: real, rooms: set<string>, st: ClientState)
    requires 0.0 <= r < 1.0
    ensures var s := Server.CreateThread(threads, r);
            var id := ThreadIds.NewThreadId(r);
            && SenderInbox(s.effects, rooms) == [ThreadCreated(id)]
            && ApplyAll(st, SenderInbox(s.effects, rooms)).threadId == id
  {
    var s := Server.CreateThread(threads, r);
    var id := ThreadIds.NewThreadId(r);
    assert s.effects[1..] == [ToSender(ThreadCreated(id))];
    assert SenderInbox(s.effects[1..], rooms + {id}) == [ThreadCreated(id)] by {
      assert s.effects[1..][1..] == [];
    }
  }

  /** A join on an open thread: the joiner receives the history and then the
      arrival notice (it is subscribed before the broadcast); every other
      socket in the room receives only the notice. A join on a thread that is
      not open: the joiner receives only the error, and nobody else anything. */
  lemma JoinInboxes(threads: Threads, id: string, name: string, email: string, socketId: string,
                    rooms: set<string>, others: set<string>)
    ensures var s := Server.JoinThread(threads, id, name, email, socketId);
            && (IsOpen(threads, id) ==>
                  && SenderInbox(s.effects, rooms)
                     == [JoinedSuccess(threads[id].messages), SystemMessage(JoinNotice(name))]
                  && MemberInbox(s.effects, others)
                     == if id in others then [SystemMessage(JoinNotice(name))] else [])
            && (!IsOpen(threads, id) ==>
                  && SenderInbox(s.effects, rooms) == [ErrorEvent(NotFoundText)]
                  && MemberInbox(s.effects, others) == [])
  {
    var s := Server.JoinThread(threads, id, name, email, socketId);
    if IsOpen(threads, id) {
      var e := s.effects;
      assert e[1..][1..][1..] == [];
      assert SenderInbox(e[1..][1..], rooms + {id}) == [SystemMessage(JoinNotice(name))];
      assert MemberInbox(e[1..][1..], others) == if id in others then [SystemMessage(JoinNotice(name))] else [];
    } else {
      assert s.effects[1..] == [];
    }
  }

  /** The joiner's note list after a successful join: the thread's notes so
      far, then its own arrival notice. */
  lemma JoinerSeesHistory(threads: Threads, id: string, name: string, email: string, socketId: string,
                          rooms: set<string>, st: ClientState)
    requires IsOpen(threads, id)
    ensures var s := Server.JoinThread(threads, id, name, email, socketId);
            var st' := ApplyAll(st, SenderInbox(s.effects, rooms));
            && st'.notes == NoteEntries(threads[id].messages) + [SystemEntry(JoinNotice(name))]
            && NotesOf(st'.notes) == threads[id].messages
  {
    JoinInboxes(threads, id, name, email, socketId, rooms, {});
    var history := threads[id].messages;
    var st1 := OnJoinedSuccess(st, history);
    var st2 := OnSystemMessage(st1, JoinNotice(name));
    var events := [JoinedSuccess(history), SystemMessage(JoinNotice(name))];
    assert ApplyAll(st, events) == ApplyAll(st1, events[1..]);
    assert ApplyAll(st1, events[1..]) == ApplyAll(st2, []);
    assert st2.notes == st1.notes + [SystemEntry(JoinNotice(name))];
  }

  /** The `receive_note` events for the given notes, in order. */
  function Receives(notes: seq<Note>): (events: seq<ServerEvent>)
    ensures |events| == |notes|
    ensures forall i :: 0 <= i < |notes| ==> events[i] == ReceiveNote(notes[i])
    decreases |notes|
  {
    if |notes| == 0 then [] else [ReceiveNote(notes[0])] + Receives(notes[1..])
  }

  /** Every effect is a room broadcast of a note. */
  predicate OnlyNoteBroadcasts(effects: seq<Effect>) {
    forall i :: 0 <= i < |effects| ==> effects[i].ToRoom? && effects[i].event.ReceiveNote?
  }

  /** A run of `send_note` requests only broadcasts notes. */
  lemma {:induction false} SendAllOnlyBroadcastsNotes(threads: Threads, posts: seq<ServerTraces.Post>)
    ensures OnlyNoteBroadcasts(ServerTraces.SendAll(threads, posts).effects)
    decreases |posts|
  {
    if |posts| > 0 {
      var p := posts[0];
      var first := Server.SendNote(threads, p.threadId, p.name, p.text, p.now, p.localTime);
      SendAllOnlyBroadcastsNotes(first.threads, posts[1..]);
    }
  }

  /** For note broadcasts, a member of room `id` receives exactly the notes
      broadcast to `id`. */
  lemma {:induction false} MemberInboxOfBroadcasts(effects: seq<Effect>, id: string)
    requires OnlyNoteBroadcasts(effects)
    ensures MemberInbox(effects, {id}) == Receives(ServerTraces.Broadcasts(effects, id))
    decreases |effects|
  {
    if |effects| > 0 {
      assert OnlyNoteBroadcasts(effects[1..]) by {
        forall i | 0 <= i < |effects[1..]|
          ensures effects[1..][i].ToRoom? && effects[1..][i].event.ReceiveNote?
        {
          assert effects[1..][i] == effects[i + 1];
        }
      }
      MemberInboxOfBroadcasts(effects[1..], id);
      var head := ServerTraces.BroadcastOf(effects[0], id);
      var tail := ServerTraces.Broadcasts(effects[1..], id);
      assert Receives(head + tail) == Receives(head) + Receives(tail);
    }
  }

  /** Appending one entry and then the entries of the remaining notes is
      appending the entries of all the notes. */
  lemma AppendFirstEntry(before: seq<Entry>, after: seq<Entry>, notes: seq<Note>)
    requires |notes| > 0
    requires after == before + [NoteEntry(notes[0])]
    ensures after + NoteEntries(notes[1..]) == before + NoteEntries(notes)
  {
    var head := [NoteEntry(notes[0])];
    var tail := NoteEntries(notes[1..]);
    assert NoteEntries(notes) == head + tail;
    ConcatAssoc(before, head, tail);
  }

  lemma ConcatAssoc<T>(a: seq<T>, b: seq<T>, c: seq<T>)
    ensures (a + b) + c == a + (b + c)
  {
  }

  /** Receiving a non-empty run of notes is receiving the first, then the rest. */
  lemma ApplyReceivesStep(st: ClientState, notes: seq<Note>)
    requires |notes| > 0
    ensures ApplyAll(st, Receives(notes)) == ApplyAll(OnReceiveNote(st, notes[0]), Receives(notes[1..]))
  {
    var events := Receives(notes);
    assert events[0] == ReceiveNote(notes[0]);
    assert events[1..] == Receives(notes[1..]);
  }

  /** Receiving notes appends them to the client's list, in order. */
  lemma {:induction false} ApplyReceives(st: ClientState, notes: seq<Note>)
    ensures ApplyAll(st, Receives(notes)).notes == st.notes + NoteEntries(notes)
    decreases |notes|
  {
    if |notes| == 0 {
      assert st.notes + NoteEntries(notes) == st.notes;
    } else {
      var st1 := OnReceiveNote(st, notes[0]);
      ApplyReceivesStep(st, notes);
      ApplyReceives(st1, notes[1..]);
      AppendFirstEntry(st.notes, st1.notes, notes);
    }
  }

  /** Ordered delivery: a client subscribed to the room of an open thread and
      to no other room, while a run of `send_note` requests is handled, appends exactly the
      notes the thread's log gains, in log order. The sender itself is one of
      these clients: `send_note` emits only to the room. */
  lemma RoomMemberFollowsLog(threads: Threads, posts: seq<ServerTraces.Post>, id: string, st: ClientState)
    requires IsOpen(threads, id)
    ensures var s := ServerTraces.SendAll(threads, posts);
            var later := ServerTraces.NotesFor(posts, id);
            && id in s.threads
            && s.threads[id].messages == threads[id].messages + later
            && ApplyAll(st, MemberInbox(s.effects, {id})).notes == st.notes + NoteEntries(later)
  {
    var s := ServerTraces.SendAll(threads, posts);
    ServerTraces.SendAllBroadcastsInLogOrder(threads, posts, id);
    SendAllOnlyBroadcastsNotes(threads, posts);
    MemberInboxOfBroadcasts(s.effects, id);
    ApplyReceives(st, ServerTraces.NotesFor(posts, id));
  }

  /** A student who joins an open thread and stays subscribed while only
      `send_note` requests are handled ends with exactly the thread's log as
      its notes, in log order. `CollisionDesyncsStudent` shows that a
      colliding `create_thread` in between breaks this. */
  lemma StudentNotesMatchLog(threads: Threads, id: string, name: string, email: string, socketId: string,
                             st: ClientState, posts: seq<ServerTraces.Post>)
    requires IsOpen(threads, id)
    ensures var joined := Server.JoinThread(threads, id, name, email, socketId);
            var st1 := ApplyAll(st, SenderInbox(joined.effects, {}));
            var sent := ServerTraces.SendAll(joined.threads, posts);
            var st2 := ApplyAll(st1, MemberInbox(sent.effects, {id}));
            id in sent.threads && NotesOf(st2.notes) == sent.threads[id].messages
  {
    var joined := Server.JoinThread(threads, id, name, email, socketId);
    JoinerSeesHistory(threads, id, name, email, socketId, {}, st);
    var st1 := ApplyAll(st, SenderInbox(joined.effects, {}));
    RoomMemberFollowsLog(joined.threads, posts, id, st1);
    var later := ServerTraces.NotesFor(posts, id);
    NotesOfAppend(st1.notes, NoteEntries(later));
    NotesOfNoteEntries(later);
  }

  /** `create_thread` emits nothing to any room: subscribed sockets receive
      nothing from it. */
  lemma CreateIsSilentToRooms(threads: Threads, r: real, rooms: set<string>)
    requires 0.0 <= r < 1.0
    ensures MemberInbox(Server.CreateThread(threads, r).effects, rooms) == []
  {
    var id := ThreadIds.NewThreadId(r);
    var effects := Server.CreateThread(threads, r).effects;
    assert effects == [JoinRoom(id), ToSender(ThreadCreated(id))];
    var rest := effects[1..];
    assert rest == [ToSender(ThreadCreated(id))] && rest[1..] == [];
    assert MemberInbox(rest, rooms) == [] + MemberInbox(rest[1..], rooms);
    assert MemberInbox(effects, rooms) == [] + MemberInbox(rest, rooms);
  }

  /** A `create_thread` whose drawn id is that of an open thread replaces it
      with an empty one and tells the room nothing. A student who joined the
      old thread keeps its notes: after later posts its list holds the old log
      followed by the new notes, while the thread's log holds only the new
      notes. The student's inbox is everything it receives, in order: its
      join's replies, then the room's share of the create and of the posts. */
  lemma CollisionDesyncsStudent(threads: Threads, id: string, name: string, email: string, socketId: string,
                                st: ClientState, r: real, posts: seq<ServerTraces.Post>)
    requires IsOpen(threads, id)
    requires 0.0 <= r < 1.0 && ThreadIds.NewThreadId(r) == id
    ensures var joined := Server.JoinThread(threads, id, name, email, socketId);
            var created := Server.CreateThread(joined.threads, r);
            var sent := ServerTraces.SendAll(created.threads, posts);
            var inbox := SenderInbox(joined.effects, {}) + MemberInbox(created.effects + sent.effects, {id});
            var st' := ApplyAll(st, inbox);
            && id in sent.threads
            && sent.threads[id].messages == ServerTraces.NotesFor(posts, id)
            && NotesOf(st'.notes) == threads[id].messages + ServerTraces.NotesFor(posts, id)
            && (threads[id].messages != [] ==> NotesOf(st'.notes) != sent.threads[id].messages)
  {
    var joined := Server.JoinThread(threads, id, name, email, socketId);
    var created := Server.CreateThread(joined.threads, r);
    var sent := ServerTraces.SendAll(created.threads, posts);
    var later := ServerTraces.NotesFor(posts, id);
    var joinInbox := SenderInbox(joined.effects, {});
    var roomInbox := MemberInbox(created.effects + sent.effects, {id});
    JoinerSeesHistory(threads, id, name, email, socketId, {}, st);
    var st1 := ApplyAll(st, joinInbox);
    ApplyAllAppend(st, joinInbox, roomInbox);
    CreateIsSilentToRooms(joined.threads, r, {id});
    MemberInboxAppend(created.effects, sent.effects, {id});
    assert roomInbox == MemberInbox(sent.effects, {id});
    assert created.threads[id] == EmptyThread;
    RoomMemberFollowsLog(created.threads, posts, id, st1);
    NotesOfAppend(st1.notes, NoteEntries(later));
    NotesOfNoteEntries(later);
    if threads[id].messages != [] {
      assert |threads[id].messages + later| != |later|;
    }
  }
}

=== FILE: js_text.dfy ===
/** The JavaScript string operations the client relies on: `String.prototype.trim`,
    `Array.prototype.join` and `String.prototype.split` with a one-character
    separator. */
module JsText {

  /** The characters `trim` removes: the ECMAScript WhiteSpace code points
      (tab, vertical tab, form feed, space, no-break space, byte order mark and
      the other space separators) and the LineTerminator code points. */
  predicate IsJsWhitespace(c: char) {
    || c == '\t' || c == '\n' || c == '\U{000B}' || c == '\U{000C}' || c == '\r' || c == ' '
    || c == '\U{00A0}' || c == '\U{1680}' || ('\U{2000}' <= c <= '\U{200A}')
    || c == '\U{2028}' || c == '\U{2029}' || c == '\U{202F}' || c == '\U{205F}'
    || c == '\U{3000}' || c == '\U{FEFF}'
  }

  /** Every character of `s` is whitespace (the empty string included). */
  predicate IsBlank(s: string) {
    forall i :: 0 <= i < |s| ==> IsJsWhitespace(s[i])
  }

  /** The index of the first non-whitespace character of `s`, or `|s|`. */
  function TrimStartIndex(s: string): (a: nat)
    ensures a <= |s| && IsBlank(s[..a])
    ensures a < |s| ==> !IsJsWhitespace(s[a])
    decreases |s|
  {
    if |s| > 0 && IsJsWhitespace(s[0]) then
      var a := 1 + TrimStartIndex(s[1..]);
      assert s[..a] == [s[0]] + s[1..][..a - 1];
      a
    else 0
  }

  /** One past the index of the last non-whitespace character of `s`, or 0. */
  function TrimEndIndex(s: string): (b: nat)
    ensures b <= |s| && IsBlank(s[b..])
    ensures b > 0 ==> !IsJsWhitespace(s[b - 1])
    decreases |s|
  {
    if |s| > 0 && IsJsWhitespace(s[|s| - 1]) then
      var b := TrimEndIndex(s[..|s| - 1]);
      assert forall i :: 0 <= i < |s| - 1 - b ==> s[b..][i] == s[..|s| - 1][b..][i];
      b
    else |s|
  }

  /** `s.trim()`: the slice of `s` between its leading and its trailing
      whitespace, which starts and ends with a non-whitespace character. */
  function Trim(s: string): (r: string)
    ensures var a := TrimStartIndex(s);
            && a + |r| <= |s| && r == s[a..a + |r|]
            && IsBlank(s[..a]) && IsBlank(s[a + |r|..])
    ensures |r| > 0 ==> !IsJsWhitespace(r[0]) && !IsJsWhitespace(r[|r| - 1])
  {
    var a := TrimStartIndex(s);
    var t := s[a..];
    var b := TrimEndIndex(t);
    assert t[b..] == s[a + b..];
    t[..b]
  }

  /** `s.trim()` is empty exactly when `s` is blank. */
  lemma TrimEmptyIffBlank(s: string)
    ensures Trim(s) == "" <==> IsBlank(s)
  {
    var a := TrimStartIndex(s);
    if Trim(s) == "" {
      assert a == |s|;
      assert s[..|s|] == s;
    } else {
      var r := Trim(s);
      assert r[0] == s[a];
    }
  }

  /** `lines.join(sep)`. */
  function Join(lines: seq<string>, sep: char): string
    decreases |lines|
  {
    if |lines| == 0 then ""
    else if |lines| == 1 then lines[0]
    else lines[0] + [sep] + Join(lines[1..], sep)
  }

  /** `s.split(sep)`: the pieces between occurrences of `sep`; there is always
      at least one piece. */
  function Split(s: string, sep: char): (pieces: seq<string>)
    ensures |pieces| > 0
    decreases |s|
  {
    if |s| == 0 then [""]
    else if s[0] == sep then [""] + Split(s[1..], sep)
    else
      var rest := Split(s[1..], sep);
      [[s[0]] + rest[0]] + rest[1..]
  }

  predicate Free(s: string, sep: char) {
    forall i :: 0 <= i < |s| ==> s[i] != sep
  }

  /** A piece free of the separator splits to itself. */
  lemma {:induction false} SplitFree(a: string, sep: char)
    requires Free(a, sep)
    ensures Split(a, sep) == [a]
    decreases |a|
  {
    if |a| > 0 {
      SplitFree(a[1..], sep);
      assert [a[0]] + a[1..] == a;
    }
  }

  /** Splitting `a + [sep] + b` peels off `a` when `a` is free of the separator. */
  lemma {:induction false} SplitAtFirst(a: string, b: string, sep: char)
    requires Free(a, sep)
    ensures Split(a + [sep] + b, sep) == [a] + Split(b, sep)
    decreases |a|
  {
    var s := a + [sep] + b;
    if |a| == 0 {
      assert s[1..] == b;
    } else {
      assert s[0] == a[0];
      assert s[1..] == a[1..] + [sep] + b;
      SplitAtFirst(a[1..], b, sep);
      assert [a[0]] + a[1..] == a;
    }
  }

  /** Splitting a join gives back the lines, provided there is at least one
      line and no line contains the separator. */
  lemma {:induction false} SplitJoin(lines: seq<string>, sep: char)
    requires |lines| > 0
    requires forall i :: 0 <= i < |lines| ==> Free(lines[i], sep)
    ensures Split(Join(lines, sep), sep) == lines
    decreases |lines|
  {
    if |lines| == 1 {
      SplitFree(lines[0], sep);
    } else {
      SplitAtFirst(lines[0], Join(lines[1..], sep), sep);
      SplitJoin(lines[1..], sep);
    }
  }

  /** The join has exactly one separator between consecutive lines. */
  lemma {:induction false} JoinSeparatorCount(lines: seq<string>, sep: char)
    requires forall i :: 0 <= i < |lines| ==> Free(lines[i], sep)
    ensures Count(Join(lines, sep), sep) == if |lines| == 0 then 0 else |lines| - 1
    decreases |lines|
  {
    if |lines| == 1 {
      CountFree(lines[0], sep);
    } else if |lines| > 1 {
      CountAppend(lines[0] + [sep], Join(lines[1..], sep), sep);
      CountAppend(lines[0], [sep], sep);
      CountFree(lines[0], sep);
      JoinSeparatorCount(lines[1..], sep);
    }
  }

  /** The number of occurrences of `c` in `s`. */
  function Count(s: string, c: char): nat
    decreases |s|
  {
    if |s| == 0 then 0 else (if s[0] == c then 1 else 0) + Count(s[1..], c)
  }

  lemma {:induction false} CountAppend(a: string, b: string, c: char)
    ensures Count(a + b, c) == Count(a, c) + Count(b, c)
    decreases |a|
  {
    if |a| == 0 {
      assert a + b == b;
    } else {
      assert (a + b)[1..] == a[1..] + b;
      CountAppend(a[1..], b, c);
    }
  }

  lemma {:induction false} CountFree(a: string, c: char)
    requires Free(a, c)
    ensures Count(a, c) == 0
    decreases |a|
  {
    if |a| > 0 {
      CountFree(a[1..], c);
    }
  }
}

=== FILE: records.dfy ===
/** The records the relay keeps in memory and the named events that travel
    between a browser client and the relay (server/server.js, client/src/App.js). */
module Records {

  /** One joined student: the self-declared name and contact string, and the
      transport identity of the socket that joined. */
  datatype Participant = Participant(name: string, email: string, socketId: string)

  /** One note. `id` is the server clock in milliseconds at receipt and
      `timestamp` the server's local-time rendering of the same instant; both
      are supplied from outside the model. */
  datatype Note = Note(id: int, name: string, text: string, timestamp: string)

  /** One live thread of the registry. */
  datatype Thread = Thread(active: bool, messages: seq<Note>, students: seq<Participant>)

  /** Events the relay sends to clients. */
  datatype ServerEvent =
    | ThreadCreated(threadId: string)
    | JoinedSuccess(history: seq<Note>)
    | ReceiveNote(note: Note)
    | SystemMessage(text: string)
    | ThreadClosed
    | ErrorEvent(message: string)

  /** Events a client sends to the relay, with their payloads. */
  datatype ClientRequest =
    | CreateThreadRequest
    | JoinThreadRequest(threadId: string, name: string, email: string)
    | SendNoteRequest(threadId: string, name: string, text: string)
    | CloseThreadRequest(threadId: string)
}

=== FILE: server.dfy ===
/** The relay's thread table `threads` and its four socket handlers
    (server/server.js:23, 40-83). Each handler runs to completion, so each is
    a pure function from the table (and the archive file) to the new table and
    the list of effects it performs, in the order it performs them. */
module Server {
  import opened Records
  import ThreadIds
  import Archive

  type Threads = map<string, Thread>

  /** What a handler does to the transport: subscribe the calling socket to a
      room, emit to the calling socket, or emit to every socket in a room. */
  datatype Effect =
    | JoinRoom(room: string)
    | ToSender(event: ServerEvent)
    | ToRoom(room: string, event: ServerEvent)

  /** Result of the handlers that only touch the thread table. */
  datatype Step = Step(threads: Threads, effects: seq<Effect>)

  /** Result of `close_thread`, which also writes the archive file. */
  datatype CloseStep = CloseStep(threads: Threads, store: Archive.StoreFile, effects: seq<Effect>)

  const NotFoundText: string := "Thread not found or closed."

  const EmptyThread: Thread := Thread(true, [], [])

  /** `thread && thread.active` for `thread = threads[threadId]`. */
  predicate IsOpen(threads: Threads, threadId: string) {
    threadId in threads && threads[threadId].active
  }

  /** Every entry of the table is active: `close_thread` deletes a thread in
      the same step in which it clears `active`. */
  predicate AllActive(threads: Threads) {
    forall k :: k in threads ==> threads[k].active
  }

  /** Every entry other than `threadId` is the same in both tables. */
  predicate OthersUnchanged(before: Threads, after: Threads, threadId: string) {
    && before.Keys - {threadId} == after.Keys - {threadId}
    && (forall k :: k != threadId && k in before ==> k in after && after[k] == before[k])
  }

  /** The announcement broadcast when someone joins. */
  function JoinNotice(name: string): (text: string)
    ensures |text| == |name| + 17
    ensures text[..2] == "> " && text[|text| - 15..] == " has jacked in."
    ensures text[2..|text| - 15] == name
  {
    "> " + name + " has jacked in."
  }

  /** `create_thread` with the draw `r` of `Math.random()`. The new id
      overwrites whatever thread held it: there is no collision check. */
  function CreateThread(threads: Threads, r: real): (s: Step)
    requires 0.0 <= r < 1.0
    ensures var id := ThreadIds.NewThreadId(r);
            && s.threads.Keys == threads.Keys + {id}
            && s.threads[id] == EmptyThread
            && OthersUnchanged(threads, s.threads, id)
            && s.effects == [JoinRoom(id), ToSender(ThreadCreated(id))]
  {
    var id := ThreadIds.NewThreadId(r);
    Step(threads[id := EmptyThread], [JoinRoom(id), ToSender(ThreadCreated(id))])
  }

  /** `join_thread` from socket `socketId`. */
  function JoinThread(threads: Threads, threadId: string, name: string, email: string, socketId: string): (s: Step)
    ensures !IsOpen(threads, threadId) ==>
              s.threads == threads && s.effects == [ToSender(ErrorEvent(NotFoundText))]
    ensures IsOpen(threads, threadId) ==>
              && s.threads.Keys == threads.Keys
              && s.threads[threadId].active
              && s.threads[threadId].messages == threads[threadId].messages
              && s.threads[threadId].students == threads[threadId].students + [Participant(name, email, socketId)]
              && OthersUnchanged(threads, s.threads, threadId)
              && s.effects == [ JoinRoom(threadId),
                                ToSender(JoinedSuccess(threads[threadId].messages)),
                                ToRoom(threadId, SystemMessage(JoinNotice(name))) ]
  {
    if IsOpen(threads, threadId) then
      var thread := threads[threadId];
      var thread' := thread.(students := thread.students + [Participant(name, email, socketId)]);
      Step(threads[threadId := thread'],
           [ JoinRoom(threadId),
             ToSender(JoinedSuccess(thread.messages)),
             ToRoom(threadId, SystemMessage(JoinNotice(name))) ])
    else
      Step(threads, [ToSender(ErrorEvent(NotFoundText))])
  }

  /** `send_note`, with `now` for `Date.now()` and `localTime` for
      `new Date().toLocaleTimeString()`. Blank text is not rejected here. */
  function SendNote(threads: Threads, threadId: string, name: string, text: string, now: int, localTime: string): (s: Step)
    ensures !IsOpen(threads, threadId) ==> s.threads == threads && s.effects == []
    ensures IsOpen(threads, threadId) ==>
              var note := Note(now, name, text, localTime);
              && s.threads.Keys == threads.Keys
              && s.threads[threadId].active
              && s.threads[threadId].messages == threads[threadId].messages + [note]
              && s.threads[threadId].students == threads[threadId].students
              && OthersUnchanged(threads, s.threads, threadId)
              && s.effects == [ToRoom(threadId, ReceiveNote(note))]
  {
    if IsOpen(threads, threadId) then
      var note := Note(now, name, text, localTime);
      var thread := threads[threadId];
      Step(threads[threadId := thread.(messages := thread.messages + [note])],
           [ToRoom(threadId, ReceiveNote(note))])
    else
      Step(threads, [])
  }

  /** `close_thread`, with `closedAt` for `new Date().toISOString()`. Any
      caller may close any present thread: there is no role check. */
  function CloseThread(threads: Threads, store: Archive.StoreFile, threadId: string, closedAt: string): (c: CloseStep)
    ensures threadId !in threads ==> c == CloseStep(threads, store, [])
    ensures threadId in threads ==>
              && c.threads.Keys == threads.Keys - {threadId}
              && OthersUnchanged(threads, c.threads, threadId)
              && c.store.Stored?
              && c.store.records == Archive.SaveThread(store, threadId, threads[threadId].(active := false), closedAt)
              && c.effects == [ToRoom(threadId, ThreadClosed)]
  {
    if threadId in threads then
      var closed := threads[threadId].(active := false);
      CloseStep(threads - {threadId},
                Archive.Stored(Archive.SaveThread(store, threadId, closed, closedAt)),
                [ToRoom(threadId, ThreadClosed)])
    else
      CloseStep(threads, store, [])
  }

  /** The relay's whole state: the live table and the archive file. */
  datatype World = World(threads: Threads, store: Archive.StoreFile)

  /** The values the handlers read from the environment: the random draw,
      `Date.now()`, `toLocaleTimeString()` and `toISOString()`. */
  datatype Env = Env(random: real, now: int, localTime: string, isoTime: string)

  predicate ValidEnv(env: Env) {
    0.0 <= env.random < 1.0
  }

  /** The thread a request addresses. */
  function Target(req: ClientRequest, env: Env): string
    requires ValidEnv(env)
  {
    match req
    case CreateThreadRequest => ThreadIds.NewThreadId(env.random)
    case JoinThreadRequest(threadId, _, _) => threadId
    case SendNoteRequest(threadId, _, _) => threadId
    case CloseThreadRequest(threadId) => threadId
  }

  datatype WorldStep = WorldStep(world: World, effects: seq<Effect>)

  /** The relay's reaction to one request from socket `socketId`. */
  function Handle(w: World, socketId: string, req: ClientRequest, env: Env): (s: WorldStep)
    requires ValidEnv(env)
    ensures AllActive(w.threads) ==> AllActive(s.world.threads)
    ensures OthersUnchanged(w.threads, s.world.threads, Target(req, env))
    ensures !req.CloseThreadRequest? ==> s.world.store == w.store
    ensures forall e :: e in s.effects && e.ToRoom? ==> e.room == Target(req, env)
  {
    match req
    case CreateThreadRequest =>
      var st := CreateThread(w.threads, env.random);
      WorldStep(w.(threads := st.threads), st.effects)
    case JoinThreadRequest(threadId, name, email) =>
      var st := JoinThread(w.threads, threadId, name, email, socketId);
      WorldStep(w.(threads := st.threads), st.effects)
    case SendNoteRequest(threadId, name, text) =>
      var st := SendNote(w.threads, threadId, name, text, env.now, env.localTime);
      WorldStep(w.(threads := st.threads), st.effects)
    case CloseThreadRequest(threadId) =>
      var c := CloseThread(w.threads, w.store, threadId, env.isoTime);
      WorldStep(World(c.threads, c.store), c.effects)
  }
}

=== FILE: server_traces.dfy ===
/** Properties of the relay over sequences of requests (server/server.js:40-83). */
module ServerTraces {
  import opened Records
  import ThreadIds
  import Archive
  import opened Server

  /** One request as it reaches the relay: the sending socket, the event and
      the environment values the handler reads. */
  datatype Call = Call(socketId: string, req: ClientRequest, env: Env)

  predicate ValidCalls(calls: seq<Call>) {
    forall i :: 0 <= i < |calls| ==> ValidEnv(calls[i].env)
  }

  /** The relay handling `calls` one after the other, each to completion. */
  function Run(w: World, calls: seq<Call>): (s: WorldStep)
    requires ValidCalls(calls)
    decreases |calls|
  {
    if |calls| == 0 then WorldStep(w, [])
    else
      var first := Handle(w, calls[0].socketId, calls[0].req, calls[0].env);
      var rest := Run(first.world, calls[1..]);
      WorldStep(rest.world, first.effects + rest.effects)
  }

  /** No sequence of requests leaves an inactive thread in the table. */
  lemma {:induction false} RunKeepsAllActive(w: World, calls: seq<Call>)
    requires ValidCalls(calls) && AllActive(w.threads)
    ensures AllActive(Run(w, calls).world.threads)
    decreases |calls|
  {
    if |calls| > 0 {
      var first := Handle(w, calls[0].socketId, calls[0].req, calls[0].env);
      assert ValidCalls(calls[1..]) by {
        forall i | 0 <= i < |calls[1..]| ensures ValidEnv(calls[1..][i].env) {
          assert calls[1..][i] == calls[i + 1];
        }
      }
      RunKeepsAllActive(first.world, calls[1..]);
    }
  }

  /** A thread that no request addresses keeps its presence and its contents:
      threads are independent of each other. */
  lemma {:induction false} RunIsolatesThreads(w: World, calls: seq<Call>, id: string)
    requires ValidCalls(calls)
    requires forall i :: 0 <= i < |calls| ==> Target(calls[i].req, calls[i].env) != id
    ensures var after := Run(w, calls).world.threads;
            (id in after <==> id in w.threads) && (id in w.threads ==> after[id] == w.threads[id])
    decreases |calls|
  {
    if |calls| > 0 {
      var first := Handle(w, calls[0].socketId, calls[0].req, calls[0].env);
      assert ValidCalls(calls[1..]) by {
        forall i | 0 <= i < |calls[1..]| ensures ValidEnv(calls[1..][i].env) {
          assert calls[1..][i] == calls[i + 1];
        }
      }
      forall i | 0 <= i < |calls[1..]|
        ensures Target(calls[1..][i].req, calls[1..][i].env) != id
      {
        assert calls[1..][i] == calls[i + 1];
      }
      RunIsolatesThreads(first.world, calls[1..], id);
    }
  }

  /** One `send_note` request with the clock values the relay reads for it. */
  datatype Post = Post(threadId: string, name: string, text: string, now: int, localTime: string)

  function NoteOf(p: Post): Note {
    Note(p.now, p.name, p.text, p.localTime)
  }

  /** The relay handling a sequence of `send_note` requests. */
  function SendAll(threads: Threads, posts: seq<Post>): Step
    decreases |posts|
  {
    if |posts| == 0 then Step(threads, [])
    else
      var p := posts[0];
      var first := SendNote(threads, p.threadId, p.name, p.text, p.now, p.localTime);
      var rest := SendAll(first.threads, posts[1..]);
      Step(rest.threads, first.effects + rest.effects)
  }

  /** The notes of the posts addressed to `id`, in posting order. */
  function NotesFor(posts: seq<Post>, id: string): seq<Note>
    decreases |posts|
  {
    if |posts| == 0 then [] else MineOf(posts[0], id) + NotesFor(posts[1..], id)
  }

  /** The note one effect broadcasts to room `room`, if any. */
  function BroadcastOf(e: Effect, room: string): seq<Note> {
    if e.ToRoom? && e.room == room && e.event.ReceiveNote? then [e.event.note] else []
  }

  /** The notes broadcast to room `room`, in emission order. */
  function Broadcasts(effects: seq<Effect>, room: string): seq<Note>
    decreases |effects|
  {
    if |effects| == 0 then [] else BroadcastOf(effects[0], room) + Broadcasts(effects[1..], room)
  }

  lemma {:induction false} BroadcastsAppend(a: seq<Effect>, b: seq<Effect>, room: string)
    ensures Broadcasts(a + b, room) == Broadcasts(a, room) + Broadcasts(b, room)
    decreases |a|
  {
    if |a| == 0 {
      assert a + b == b;
    } else {
      assert (a + b)[0] == a[0];
      assert (a + b)[1..] == a[1..] + b;
      BroadcastsAppend(a[1..], b, room);
    }
  }

  /** The notes of one post addressed to `id`: its note, or none. */
  function MineOf(p: Post, id: string): seq<Note> {
    if p.threadId == id then [NoteOf(p)] else []
  }

  /** One `send_note` seen from an open thread `id`: its log grows by the
      post's note when the post is addressed to it, and only then is that
      note broadcast to its room. */
  lemma SendOneSeenFrom(threads: Threads, p: Post, id: string)
    requires IsOpen(threads, id)
    ensures var first := SendNote(threads, p.threadId, p.name, p.text, p.now, p.localTime);
            && IsOpen(first.threads, id)
            && first.threads[id].messages == threads[id].messages + MineOf(p, id)
            && first.threads[id].students == threads[id].students
            && Broadcasts(first.effects, id) == MineOf(p, id)
  {
    var first := SendNote(threads, p.threadId, p.name, p.text, p.now, p.localTime);
    if p.threadId != id {
      assert threads[id].messages + [] == threads[id].messages;
    }
    assert Broadcasts(first.effects, id) == MineOf(p, id) by {
      if |first.effects| == 1 {
        assert first.effects[1..] == [];
      }
    }
  }

  /** Unfolding a non-empty run of posts: the first post, then the rest. */
  lemma SendAllUnfold(threads: Threads, posts: seq<Post>)
    requires |posts| > 0
    ensures var p := posts[0];
            var first := SendNote(threads, p.threadId, p.name, p.text, p.now, p.localTime);
            var rest := SendAll(first.threads, posts[1..]);
            SendAll(threads, posts) == Step(rest.threads, first.effects + rest.effects)
  {
  }

  /** Over a run of posts, an open thread stays open, its log grows by
      exactly the notes posted to it, and its roster is unchanged. */
  lemma {:induction false} SendAllLog(threads: Threads, posts: seq<Post>, id: string)
    requires IsOpen(threads, id)
    ensures var after := SendAll(threads, posts).threads;
            && IsOpen(after, id)
            && after[id].messages == threads[id].messages + NotesFor(posts, id)
            && after[id].students == threads[id].students
    decreases |posts|
  {
    if |posts| > 0 {
      var p := posts[0];
      var first := SendNote(threads, p.threadId, p.name, p.text, p.now, p.localTime);
      SendAllUnfold(threads, posts);
      SendOneSeenFrom(threads, p, id);
      SendAllLog(first.threads, posts[1..], id);
      var after := SendAll(first.threads, posts[1..]).threads;
      assert SendAll(threads, posts).threads == after;
      var log := threads[id].messages;
      var mine := MineOf(p, id);
      var later := NotesFor(posts[1..], id);
      assert after[id].messages == (log + mine) + later;
      assert (log + mine) + later == log + (mine + later);
    }
  }

  /** Over a run of posts, the room of an open thread receives exactly the
      notes posted to it, in posting order. */
  lemma {:induction false} SendAllRoomBroadcasts(threads: Threads, posts: seq<Post>, id: string)
    requires IsOpen(threads, id)
    ensures Broadcasts(SendAll(threads, posts).effects, id) == NotesFor(posts, id)
    decreases |posts|
  {
    if |posts| > 0 {
      var p := posts[0];
      var first := SendNote(threads, p.threadId, p.name, p.text, p.now, p.localTime);
      var rest := SendAll(first.threads, posts[1..]);
      SendAllUnfold(threads, posts);
      SendOneSeenFrom(threads, p, id);
      SendAllRoomBroadcasts(first.threads, posts[1..], id);
      BroadcastsAppend(first.effects, rest.effects, id);
    }
  }

  /** Ordered broadcast: on a thread open before a run of `send_note`
      requests, the room receives exactly the notes posted to it, in posting
      order, and the thread's log grows by exactly those notes, in the same
      order; its roster is untouched. */
  lemma SendAllBroadcastsInLogOrder(threads: Threads, posts: seq<Post>, id: string)
    requires IsOpen(threads, id)
    ensures var s := SendAll(threads, posts);
            && IsOpen(s.threads, id)
            && s.threads[id].messages == threads[id].messages + NotesFor(posts, id)
            && s.threads[id].students == threads[id].students
            && Broadcasts(s.effects, id) == NotesFor(posts, id)
  {
    SendAllLog(threads, posts, id);
    SendAllRoomBroadcasts(threads, posts, id);
  }

  /** Posts to a thread that is not open are dropped: nothing is broadcast to
      its room and its entry does not change. */
  lemma {:induction false} SendAllIgnoresUnopenedThread(threads: Threads, posts: seq<Post>, id: string)
    requires !IsOpen(threads, id)
    ensures var s := SendAll(threads, posts);
            && (id in s.threads <==> id in threads)
            && (id in threads ==> s.threads[id] == threads[id])
            && Broadcasts(s.effects, id) == []
    decreases |posts|
  {
    if |posts| > 0 {
      var p := posts[0];
      var first := SendNote(threads, p.threadId, p.name, p.text, p.now, p.localTime);
      var rest := SendAll(first.threads, posts[1..]);
      assert !IsOpen(first.threads, id);
      SendAllIgnoresUnopenedThread(first.threads, posts[1..], id);
      BroadcastsAppend(first.effects, rest.effects, id);
      assert Broadcasts(first.effects, id) == [];
    }
  }

  /** After a close, the id is free: joining it fails with the not-found
      error, posting to it does nothing, and the archive holds the final
      thread marked inactive with its closure time. */
  lemma ClosedThreadIsGone(threads: Threads, store: Archive.StoreFile, id: string, closedAt: string,
                           name: string, email: string, socketId: string, text: string, now: int, localTime: string)
    requires id in threads
    ensures var c := CloseThread(threads, store, id, closedAt);
            && id !in c.threads
            && JoinThread(c.threads, id, name, email, socketId) == Step(c.threads, [ToSender(ErrorEvent(NotFoundText))])
            && SendNote(c.threads, id, name, text, now, localTime) == Step(c.threads, [])
            && c.store.records[id] == Archive.ArchivedThread(false, threads[id].messages, threads[id].students, closedAt)
  {
  }

  /** Closing an id that is not in the table changes nothing and emits nothing. */
  lemma CloseAbsentIsNoOp(threads: Threads, store: Archive.StoreFile, id: string, closedAt: string)
    requires id !in threads
    ensures CloseThread(threads, store, id, closedAt) == CloseStep(threads, store, [])
  {
  }

  /** A closed thread's id can be drawn again. Closing the new thread under
      that id then replaces the first thread's archived record, so its log is
      lost from the archive. */
  lemma ReusedIdOverwritesArchive(threads: Threads, store: Archive.StoreFile, id: string, r: real,
                                  t1: string, t2: string)
    requires id in threads
    requires 0.0 <= r < 1.0 && ThreadIds.NewThreadId(r) == id
    ensures var c1 := CloseThread(threads, store, id, t1);
            var created := CreateThread(c1.threads, r);
            var c2 := CloseThread(created.threads, c1.store, id, t2);
            && c1.store.records[id].messages == threads[id].messages
            && c2.store.records[id] == Archive.ArchivedThread(false, [], [], t2)
            && (threads[id].messages != [] ==> c2.store.records[id].messages != threads[id].messages)
  {
    var c1 := CloseThread(threads, store, id, t1);
    var created := CreateThread(c1.threads, r);
    assert created.threads[id] == EmptyThread;
  }

  /** On an id collision the live thread is replaced by an empty one: its
      notes and roster are lost and the table does not grow. */
  lemma CreateOverwritesOnCollision(threads: Threads, r: real)
    requires 0.0 <= r < 1.0 && ThreadIds.NewThreadId(r) in threads
    ensures var s := CreateThread(threads, r);
            && s.threads[ThreadIds.NewThreadId(r)] == EmptyThread
            && |s.threads| == |threads|
  {
    var s := CreateThread(threads, r);
    assert s.threads.Keys == threads.Keys;
  }

  /** The relay stores and broadcasts a note whose text is empty. */
  lemma BlankNoteIsStored(threads: Threads, id: string, name: string, now: int, localTime: string)
    requires IsOpen(threads, id)
    ensures var s := SendNote(threads, id, name, "", now, localTime);
            && s.threads[id].messages == threads[id].messages + [Note(now, name, "", localTime)]
            && s.effects == [ToRoom(id, ReceiveNote(Note(now, name, "", localTime)))]
  {
  }

  /** The draw 3821/9000 allocates the id "4821". */
  lemma ScenarioThreadId()
    ensures 0.0 <= 3821.0 / 9000.0 < 1.0 && ThreadIds.NewThreadId(3821.0 / 9000.0) == "4821"
  {
    var r := 3821.0 / 9000.0;
    assert ThreadIds.Draw(r) == 4821 by {
      assert r * 9000.0 == 3821.0;
      assert (4821.0).Floor == 4821;
    }
    assert ThreadIds.DecimalString(4) == "4";
    assert ThreadIds.DecimalString(48) == "48";
    assert ThreadIds.DecimalString(482) == "482";
    assert ThreadIds.DecimalString(4821) == "4821";
  }

  // A whole session, one request at a time: an instructor creates thread
  // "4821", Ann joins it, posts "hello", and the instructor closes it.

  const Ann: Participant := Participant("Ann", "a@x.com", "student")

  function Hello(now: int, localTime: string): Note {
    Note(now, "Ann", "hello", localTime)
  }

  lemma ScenarioCreate()
    ensures var created := CreateThread(map[], 3821.0 / 9000.0);
            && created.threads == map["4821" := EmptyThread]
            && created.effects == [JoinRoom("4821"), ToSender(ThreadCreated("4821"))]
  {
    ScenarioThreadId();
  }

  lemma ScenarioJoin()
    ensures var joined := JoinThread(map["4821" := EmptyThread], "4821", "Ann", "a@x.com", "student");
            && joined.threads == map["4821" := Thread(true, [], [Ann])]
            && joined.effects == [ JoinRoom("4821"), ToSender(JoinedSuccess([])),
                                   ToRoom("4821", SystemMessage("> Ann has jacked in.")) ]
  {
    var joined := JoinThread(map["4821" := EmptyThread], "4821", "Ann", "a@x.com", "student");
    assert joined.threads.Keys == {"4821"};
    assert joined.threads["4821"] == Thread(true, [], [] + [Ann]);
    assert [] + [Ann] == [Ann];
    AnnJoinNotice();
  }

  lemma AnnJoinNotice()
    ensures JoinNotice("Ann") == "> Ann has jacked in."
  {
  }

  lemma ScenarioSend(now: int, localTime: string)
    ensures var sent := SendNote(map["4821" := Thread(true, [], [Ann])], "4821", "Ann", "hello", now, localTime);
            && sent.threads == map["4821" := Thread(true, [Hello(now, localTime)], [Ann])]
            && sent.effects == [ToRoom("4821", ReceiveNote(Hello(now, localTime)))]
  {
    var sent := SendNote(map["4821" := Thread(true, [], [Ann])], "4821", "Ann", "hello", now, localTime);
    assert sent.threads.Keys == {"4821"};
    assert sent.threads["4821"] == Thread(true, [] + [Hello(now, localTime)], [Ann]);
    assert [] + [Hello(now, localTime)] == [Hello(now, localTime)];
  }

  lemma ScenarioClose(now: int, localTime: string, closedAt: string)
    ensures var closed := CloseThread(map["4821" := Thread(true, [Hello(now, localTime)], [Ann])],
                                      Archive.Missing, "4821", closedAt);
            && closed.threads == map[]
            && closed.store == Archive.Stored(map["4821" := Archive.ArchivedThread(
                 false, [Hello(now, localTime)], [Ann], closedAt)])
            && closed.effects == [ToRoom("4821", ThreadClosed)]
  {
  }
}

=== FILE: thread_ids.dfy ===
/** Thread id allocation: `Math.floor(1000 + Math.random() * 9000).toString()`
    (server/server.js:44). The random draw is a parameter. */
module ThreadIds {

  /** Smallest id the draw can produce. */
  const Low: int := 1000
  /** Number of distinct ids the draw can produce. */
  const Span: int := 9000

  predicate IsDigit(c: char) {
    '0' <= c <= '9'
  }

  predicate AllDigits(s: string) {
    forall i :: 0 <= i < |s| ==> IsDigit(s[i])
  }

  function DigitChar(d: nat): (c: char)
    requires d < 10
    ensures IsDigit(c) && c as int - '0' as int == d
  {
    ('0' as int + d) as char
  }

  function DigitValue(c: char): nat
    requires IsDigit(c)
  {
    c as int - '0' as int
  }

  /** The integer the expression `Math.floor(1000 + r * 9000)` yields for a
      draw `r` of `Math.random()`, which lies in [0, 1). */
  function Draw(r: real): (n: int)
    requires 0.0 <= r < 1.0
    ensures Low <= n < Low + Span
  {
    (Low as real + r * Span as real).Floor
  }

  /** Every integer of the id range is reached by some draw. */
  lemma DrawReachesEveryId(n: int)
    requires Low <= n < Low + Span
    ensures var r := (n - Low) as real / Span as real;
            0.0 <= r < 1.0 && Draw(r) == n
  {
    var r := (n - Low) as real / Span as real;
    assert r * Span as real == (n - Low) as real;
    assert (n as real).Floor == n;
  }

  /** `Number.prototype.toString()` of a non-negative integer below 10^21:
      its decimal digits, most significant first, with no leading zero.
      JavaScript prints larger numbers in exponent form; the ids here are
      1000..9999. */
  function DecimalString(n: nat): (s: string)
    ensures |s| > 0 && AllDigits(s)
    ensures n >= 10 ==> s[0] != '0'
    decreases n
  {
    if n < 10 then [DigitChar(n)] else DecimalString(n / 10) + [DigitChar(n % 10)]
  }

  /** The number a string of decimal digits denotes. */
  function ParseDecimal(s: string): nat
    requires AllDigits(s)
    decreases |s|
  {
    if |s| == 0 then 0 else ParseDecimal(s[..|s| - 1]) * 10 + DigitValue(s[|s| - 1])
  }

  /** Reading back the decimal string gives the number that was printed. */
  lemma {:induction false} ParseDecimalString(n: nat)
    ensures ParseDecimal(DecimalString(n)) == n
    decreases n
  {
    var s := DecimalString(n);
    if n >= 10 {
      ParseDecimalString(n / 10);
      assert s[..|s| - 1] == DecimalString(n / 10);
    }
  }

  /** Distinct numbers print as distinct strings. */
  lemma DecimalStringInjective(a: nat, b: nat)
    ensures DecimalString(a) == DecimalString(b) ==> a == b
  {
    ParseDecimalString(a);
    ParseDecimalString(b);
  }

  /** A number of the id range prints as exactly four digits. */
  lemma FourDigits(n: nat)
    requires Low <= n < Low + Span
    ensures |DecimalString(n)| == 4
  {
    assert |DecimalString(n / 1000)| == 1;
    assert DecimalString(n / 100) == DecimalString(n / 1000) + [DigitChar(n / 100 % 10)];
    assert DecimalString(n / 10) == DecimalString(n / 100) + [DigitChar(n / 10 % 10)];
  }

  /** The id a `create_thread` event allocates for the draw `r`. */
  function NewThreadId(r: real): (id: string)
    requires 0.0 <= r < 1.0
    ensures |id| == 4 && AllDigits(id) && id[0] != '0'
    ensures Low <= ParseDecimal(id) < Low + Span
    ensures id == DecimalString(ParseDecimal(id))
  {
    var n := Draw(r);
    FourDigits(n);
    ParseDecimalString(n);
    DecimalString(n)
  }
}

=== FILE: transcript.dfy ===
/** The text of the log file the instructor downloads (`saveLogsToPC`,
    client/src/App.js:80-88). The download itself is left out; the date is a
    parameter standing for `new Date().toLocaleDateString()`. */
module Transcript {
  import JsText
  import opened Client

  const SystemTag: string := "[SYSTEM] "

  /** The text an entry shows, whichever kind it is. */
  function TextOf(e: Entry): string {
    match e
    case SystemEntry(text) => text
    case NoteEntry(note) => note.text
  }

  /** One log line: a system entry as "[SYSTEM] text", a note as
      "[timestamp] <name> text". */
  function FormatEntry(e: Entry): (line: string)
    ensures |line| >= |TextOf(e)| && line[|line| - |TextOf(e)|..] == TextOf(e)
    ensures e.SystemEntry? ==> |line| == |SystemTag| + |e.text| && line[..|SystemTag|] == SystemTag
    ensures e.NoteEntry? ==>
              var prefix := "[" + e.note.timestamp + "] <" + e.note.name + "> ";
              |line| == |prefix| + |e.note.text| && line[..|prefix|] == prefix
  {
    match e
    case SystemEntry(text) => SystemTag + text
    case NoteEntry(note) => "[" + note.timestamp + "] <" + note.name + "> " + note.text
  }

  /** One line per entry, in list order. */
  function Lines(notes: seq<Entry>): seq<string> {
    seq(|notes|, i requires 0 <= i < |notes| => FormatEntry(notes[i]))
  }

  /** The lines joined by newlines. */
  function Body(notes: seq<Entry>): string {
    JsText.Join(Lines(notes), '\n')
  }

  /** The first line of the file, naming the thread. */
  function TitleLine(threadId: string): string {
    "CLASS LOG - THREAD " + threadId + "\n"
  }

  /** The header block above the lines. */
  function Header(threadId: string, date: string): string {
    TitleLine(threadId) + ("DATE: " + date + "\n----------------------------\n\n")
  }

  /** The whole file: the header, then the body. */
  function Transcript(threadId: string, date: string, notes: seq<Entry>): (text: string)
    ensures |text| >= |Header(threadId, date)|
    ensures text[..|Header(threadId, date)|] == Header(threadId, date)
    ensures text[|Header(threadId, date)|..] == Body(notes)
  {
    Header(threadId, date) + Body(notes)
  }

  /** The file opens with the title line "CLASS LOG - THREAD " + threadId. */
  lemma TranscriptTitle(threadId: string, date: string, notes: seq<Entry>)
    ensures var text := Transcript(threadId, date, notes);
            |text| >= |TitleLine(threadId)| && text[..|TitleLine(threadId)|] == TitleLine(threadId)
  {
    var title := TitleLine(threadId);
    var h := Header(threadId, date);
    var text := Transcript(threadId, date, notes);
    assert h[..|title|] == title;
    assert text[..|title|] == text[..|h|][..|title|];
  }

  /** No field an entry shows contains a newline. */
  predicate SingleLine(e: Entry) {
    match e
    case SystemEntry(text) => JsText.Free(text, '\n')
    case NoteEntry(note) =>
      JsText.Free(note.timestamp, '\n') && JsText.Free(note.name, '\n') && JsText.Free(note.text, '\n')
  }

  lemma FormatSingleLine(e: Entry)
    requires SingleLine(e)
    ensures JsText.Free(FormatEntry(e), '\n')
  {
  }

  /** When no entry shows a newline, splitting the body at newlines gives back
      exactly one line per entry, in list order. */
  lemma BodyHasOneLinePerEntry(notes: seq<Entry>)
    requires |notes| > 0
    requires forall i :: 0 <= i < |notes| ==> SingleLine(notes[i])
    ensures JsText.Split(Body(notes), '\n') == Lines(notes)
    ensures JsText.Count(Body(notes), '\n') == |notes| - 1
  {
    var lines := Lines(notes);
    forall i | 0 <= i < |lines| ensures JsText.Free(lines[i], '\n') {
      FormatSingleLine(notes[i]);
    }
    JsText.SplitJoin(lines, '\n');
    JsText.JoinSeparatorCount(lines, '\n');
  }

  /** An empty note list gives an empty body, so the file is the header alone. */
  lemma EmptyLogIsHeaderOnly(threadId: string, date: string)
    ensures Transcript(threadId, date, []) == Header(threadId, date)
  {
  }
}
